=== FILE: README.md ===
# Joystick Gremlin action plugins: map-to-mouse and map-to-SimConnect decision logic

This project models the runtime decision logic of two Joystick Gremlin action
plugins in Dafny, and proves properties of it.

**Map to Mouse EX.** A functor is bound to one configured mapping. It turns
each input event (a button or key edge, an axis deflection, a hat position)
into one of these:

- a start or stop of the shared mouse "wiggle";
- a mouse button or wheel command;
- a one-shot axis motion;
- a ramped (accelerated) motion, or a halt.

Each output goes to the local mouse controller when local routing is on. It
goes to the remote client when remote routing is on, and both can happen for
the same event. The model also covers:

- the action-mode enum and its parsing;
- the speed-bound clamp the editor applies;
- how the editor derives the motion-input flag;
- whether the action needs a virtual button.

**Map to SimConnect.** The model covers:

- choosing a default output mode for a newly selected simulator command;
- fitting the configured output range into the command's range;
- the functor's dispatch on valid, axis, press and release;
- the acceptable case of the command-name validator.

Modules:

| module | file | content |
|---|---|---|
| `Gremlin` | gremlin.dfy | input kinds, event, sample, Python truthiness, routing snapshot |
| `Text` | text.dfy | `str.strip`, `lower`, `upper`, `isnumeric`/`int` |
| `MouseActions` | mouse_action.dfy | the `MouseAction` enum, `to_string`, `str`, `from_string` |
| `MouseSettings` | mouse_settings.dfy | action data, the speed clamp, mode change, virtual button |
| `Wiggle` | wiggle.dfy | the shared wiggle handle, stop flag and worker count |
| `MouseFunctor` | mouse_functor.dfy | output commands, the `_perform_*` branches, `process_event` |
| `MouseProperties` | mouse_properties.dfy | lemmas about the functor and about runs of events |
| `SimConnect` | simconnect.dfy | default mode, range fit, functor, validator, virtual button |

Outputs are values `Command(sink, call)`. The sink is `Local` or `Remote`, and
the call is one of these:

- `Wheel(ticks)`;
- `Press(button)` or `Release(button)`;
- `Motion(dx, dy)`, where `None` leaves that axis alone;
- `Accel(direction, minSpeed, maxSpeed, rampTime)`.

`process_event` returns one of two results:

- `Handled(result, commands, wiggle)`: the returned flag, the calls in order,
  and the wiggle state afterwards;
- `Failed(fault)`: the Python exception raised before any output.

I/O and foreign calls are parameters or return values:

- The mouse controller, `gremlin.sendinput` and the remote client are
  replaced by the returned command list.
- The local/remote flags are a `Routing` argument.
- The SimConnect command's `execute` is a function parameter of the functor.
- The command block is an abstract record
  `Block(valid, isValue, isRanged, minRange, maxRange)`.

Details the model takes from the code as written:

- After a stop, the wiggle stop flag stays set until the next start: it is
  set at line 637 of action_plugins/map_to_mouse_ex/__init__.py, and only
  the start at line 627 clears it.
- An X-axis motion sends `dy = None`, not `dy = 0`.
- The hat angle is not normalised to [0, 360): up-left gives -45.

Behaviour kept as written, with lemmas that show it:

- The functor dispatches on the action's `input_type` attribute, not on the
  kind of input the action is bound to, which the editor and
  requires_virtual_button ask for. The model keeps the two apart
  (`MouseConfig.inputType` and `MouseConfig.boundInput`).
- An action whose `input_type` attribute is JoystickButton only acts in the
  two wiggle modes. In the mouse-button and motion modes it does nothing
  (`ButtonInputIgnoresMouseModes`).
- The constructor sets `input_type` to JoystickButton (line 713), and nothing
  in the plugin assigns it again. So an action as constructed here issues no
  mouse command itself in any mode, whatever it is bound to. In the two
  wiggle modes it still starts or stops the wiggle, whose worker moves the
  mouse (`NewActionOnlySwitchesWiggle`).
- A profile whose mode text names no member stores None as the mode
  (line 741). Such a mapping matches no branch of process_event: it returns
  True with no output (`UnknownModeIsInert`).
- The wheel scroll is asymmetric: up is -16, down is +1.
- The SimConnect range fit has four tests. The fourth compares the minimum
  with itself and never fires, so no inverted range inside the block is
  repaired (`ClampKeepsInvertedRange`). The third test widens any maximum that lies
  above the minimum to the block's maximum (`ClampWidensNarrowMaximum`).
- In the SimConnect functor, a hat sample is a tuple, and a tuple is always
  truthy. So when process_event is handed the raw (0, 0) tuple of a hat at
  its centre, it still executes the command (`HatCentreExecutes`). A hat
  bound through a virtual button delivers a flag instead.

## Model

| member | source | states |
|---|---|---|
| MouseActions.FromStringMeaning | action_plugins/map_to_mouse_ex/__init__.py:47-58 | from_string yields exactly the member whose decimal value or lower-cased name the lower-cased, stripped text is; it raises exactly for decimal text naming no member |
| MouseActions.ToString | action_plugins/map_to_mouse_ex/__init__.py:33-35 | a member's name never starts with a digit, so it never equals the str() text of any member |
| MouseActions.Str | action_plugins/map_to_mouse_ex/__init__.py:37-38 | str() of a member is the decimal text of its value |
| MouseActions.NamesAreDistinct | action_plugins/map_to_mouse_ex/__init__.py:33-35 | different members have different names, also once lower-cased, so from_string's first match is the only one |
| MouseActions.Lookup | action_plugins/map_to_mouse_ex/__init__.py:50-58 | on cleaned text, raising happens only for decimal text of 4 or more, and None only for text that is not decimal |
| MouseActions.FromString | action_plugins/map_to_mouse_ex/__init__.py:47-58 | a member found is one the cleaned text denotes (its decimal value or lower-cased name); it raises only for decimal text of 4 or more, and gives None only for non-decimal text |
| MouseActions.NameRoundTrip | action_plugins/map_to_mouse_ex/__init__.py:33-58 | from_string(to_string(m)) == m for every mode |
| MouseActions.ValueRoundTrip | action_plugins/map_to_mouse_ex/__init__.py:37-58 | from_string(str(m)) == m: the numeric form parses back too |
| MouseActions.ProfileModeRoundTrip | action_plugins/map_to_mouse_ex/__init__.py:772 | the mode written to a profile as its name reads back as the same mode |
| MouseActions.MissingModeIsMouseButton | action_plugins/map_to_mouse_ex/__init__.py:741 | a profile entry without a mode attribute parses as MouseButton |
| MouseActions.IgnoresCase | action_plugins/map_to_mouse_ex/__init__.py:48-50 | upper- or lower-casing the text never changes what from_string yields |
| MouseActions.IgnoresPadding | action_plugins/map_to_mouse_ex/__init__.py:50 | surrounding whitespace never changes what from_string yields |
| MouseActions.UnknownNameIsNotFound | action_plugins/map_to_mouse_ex/__init__.py:54-58 | non-numeric text matching no member name gives None |
| MouseSettings.ClampSpeeds | action_plugins/map_to_mouse_ex/__init__.py:315-323 | an ordered pair is untouched; any edit leaves min <= max; the most recently edited bound wins; with no edit nothing changes; results are edited values |
| MouseSettings.ClampStaysInSpinRange | action_plugins/map_to_mouse_ex/__init__.py:188-191 | clamped speeds stay within the spin boxes' 0..100000 range |
| MouseSettings.ClampIsStable | action_plugins/map_to_mouse_ex/__init__.py:317-323 | re-running the clamp on an edited result changes nothing |
| MouseSettings.RaisingMinPullsMaxUp | action_plugins/map_to_mouse_ex/__init__.py:321-323 | raising the minimum above the maximum sets the maximum to the new minimum |
| MouseSettings.LoweringMaxPullsMinDown | action_plugins/map_to_mouse_ex/__init__.py:318-320 | lowering the maximum below the minimum sets the minimum to the new maximum |
| MouseSettings.UpdateAxis | action_plugins/map_to_mouse_ex/__init__.py:310-331 | axis editor update: clamped speeds, direction 90 iff the X axis is chosen (else 0), nothing else changed |
| MouseSettings.UpdateButtonHat | action_plugins/map_to_mouse_ex/__init__.py:333-355 | button/hat editor update: clamped speeds, ramp time and direction as edited, nothing else changed |
| MouseSettings.ChangeMode | action_plugins/map_to_mouse_ex/__init__.py:391-406 | after a mode change, motion input is on exactly for the mouse-motion mode |
| MouseSettings.RequiresVirtualButton | action_plugins/map_to_mouse_ex/__init__.py:723-732 | a virtual button is needed exactly for an action bound to an axis or hat that is not motion input; never for buttons or keys |
| MouseSettings.NewAction | action_plugins/map_to_mouse_ex/__init__.py:691-713 | a new action has `input_type` JoystickButton whatever it is bound to, the mouse-button mode without motion input, and ordered speeds within the spin box range |
| MouseSettings.LoadMode | action_plugins/map_to_mouse_ex/__init__.py:741 | loading the mode raises exactly when from_string raises; otherwise the mode is the member found, or None when nothing matched, and nothing else changes |
| MouseSettings.LoadMissingMode | action_plugins/map_to_mouse_ex/__init__.py:741 | an entry without a mode attribute loads as a mouse-button mapping |
| MouseSettings.LoadSavedMode | action_plugins/map_to_mouse_ex/__init__.py:741 | the mode name written at line 772 loads back as the same mode |
| MouseSettings.VirtualButtonAfterModeChange | action_plugins/map_to_mouse_ex/__init__.py:723-732 | after a mode change in the editor, a virtual button is needed exactly for an action bound to an axis or hat in a mode other than mouse motion |
| Wiggle.Start | action_plugins/map_to_mouse_ex/__init__.py:622-629 | start with a live handle changes nothing; otherwise it clears the stop flag and spawns one worker; consistency is preserved |
| Wiggle.Stop | action_plugins/map_to_mouse_ex/__init__.py:631-640 | stop with no handle changes nothing; otherwise the flag is left set, the worker has exited and the handle is dropped |
| Wiggle.StartTwice | action_plugins/map_to_mouse_ex/__init__.py:622-629 | two starts in a row equal one start and leave exactly one worker |
| Wiggle.StopWhenIdle | action_plugins/map_to_mouse_ex/__init__.py:631-635 | a stop without a start is a no-op |
| Wiggle.StopTwice | action_plugins/map_to_mouse_ex/__init__.py:631-640 | stopping twice equals stopping once |
| Wiggle.StopThenStart | action_plugins/map_to_mouse_ex/__init__.py:622-640 | after a stop no worker is alive; a later start spawns a fresh one with a cleared flag |
| MouseFunctor.Route | action_plugins/map_to_mouse_ex/__init__.py:570-574 | a call goes to the local sink iff local routing is on and to the remote sink iff remote routing is on, local first, nothing else |
| MouseFunctor.PerformMouseButton | action_plugins/map_to_mouse_ex/__init__.py:531-553 | raises exactly when the action is flagged as motion input; otherwise routed calls, at most one per sink, the local one first |
| MouseFunctor.CopySign | action_plugins/map_to_mouse_ex/__init__.py:565 | the result has the magnitude of the first argument and the sign of the second |
| MouseFunctor.AxisDelta | action_plugins/map_to_mouse_ex/__init__.py:563-566 | the delta is zero in the dead zone and never points against the deflection |
| MouseFunctor.PerformAxisMotion | action_plugins/map_to_mouse_ex/__init__.py:557-574 | raises exactly for a hat sample; otherwise only motion calls, at most one per sink with the local one first, with dx set iff direction is 90 and dy set otherwise |
| MouseFunctor.PerformButtonMotion | action_plugins/map_to_mouse_ex/__init__.py:576-593 | a press produces only ramped-motion calls, a release only the zero-motion call, at most one per sink with the local one first |
| MouseFunctor.HatAngle | action_plugins/map_to_mouse_ex/__init__.py:610 | every off-centre hat direction is a multiple of 45 degrees in (-90, 360) |
| MouseFunctor.PerformHatMotion | action_plugins/map_to_mouse_ex/__init__.py:595-619 | raises exactly when the sample is not a hat tuple; otherwise routed calls, at most one per sink with the local one first |
| MouseFunctor.ProcessEvent | action_plugins/map_to_mouse_ex/__init__.py:496-529 | the result is always True; exactly the listed conditions raise; outputs are routed, at most one per sink, the local one first; a button input outputs nothing; only a button input changes the wiggle; wiggle consistency is preserved; a mapping with no mode does nothing |
| MouseProperties.AxisDeadZone | action_plugins/map_to_mouse_ex/__init__.py:566 | a deflection below 0.05 gives a delta of exactly 0, whatever the speeds |
| MouseProperties.AxisFormula | action_plugins/map_to_mouse_ex/__init__.py:563-566 | outside the dead zone, whenever the interpolated speed is not negative (inverted pairs included), delta = sign(v) * (min + abs(v) * (max - min)) |
| MouseProperties.AxisInvertedExample | action_plugins/map_to_mouse_ex/__init__.py:563-566 | an inverted pair 20..10, as a profile may hold it, moves by 15 at deflection 0.5 |
| MouseProperties.AxisMagnitudeBounds | action_plugins/map_to_mouse_ex/__init__.py:563-566 | for 0 <= min <= max and 0.05 <= abs(v) <= 1, the delta magnitude lies in [min, max] |
| MouseProperties.AxisFullDeflection | action_plugins/map_to_mouse_ex/__init__.py:563-565 | a full deflection moves at exactly the maximum speed |
| MouseProperties.AxisIsOdd | action_plugins/map_to_mouse_ex/__init__.py:563-566 | mirroring the deflection mirrors the delta |
| MouseProperties.AxisMonotone | action_plugins/map_to_mouse_ex/__init__.py:563-566 | a larger deflection never gives a smaller delta magnitude |
| MouseProperties.AxisExample | action_plugins/map_to_mouse_ex/__init__.py:563-574 | an X-axis mapping with speeds 5..15 at deflection 0.5 sends dx = 10 with dy left alone |
| MouseProperties.AxisMotionDispatch | action_plugins/map_to_mouse_ex/__init__.py:557-574 | an axis event in motion mode sends the delta to the enabled sinks, on dx for direction 90 and on dy otherwise |
| MouseProperties.WheelPressScrolls | action_plugins/map_to_mouse_ex/__init__.py:534-542 | a wheel-up press scrolls -16 and a wheel-down press scrolls +1, once per enabled sink |
| MouseProperties.WheelReleaseIsSilent | action_plugins/map_to_mouse_ex/__init__.py:534-535 | a wheel release outputs nothing |
| MouseProperties.ButtonFollowsValue | action_plugins/map_to_mouse_ex/__init__.py:543-553 | any other button presses on a true value and releases on a false one: exactly one call to each enabled sink, the local one first, and nothing else |
| MouseProperties.MotionInputButtonRaises | action_plugins/map_to_mouse_ex/__init__.py:532 | a mouse-button action flagged as motion input fails its assertion |
| MouseProperties.EditedModeNeverAsserts | action_plugins/map_to_mouse_ex/__init__.py:532 | an action whose mode was set through the editor never fails that assertion |
| MouseProperties.ButtonMotionDispatch | action_plugins/map_to_mouse_ex/__init__.py:576-593 | a press ramps with exactly (direction, min, max, ramp time); a release sends motion (0, 0) |
| MouseProperties.HatMotionDispatch | action_plugins/map_to_mouse_ex/__init__.py:595-619 | a hat at (0, 0) sends motion (0, 0); any other position ramps in its direction with the configured speeds |
| MouseProperties.HatAngleIsCompass | action_plugins/map_to_mouse_ex/__init__.py:610 | up is 0 degrees, up-right 45, up-left -45, and a quarter turn of the hat clockwise adds 90 degrees modulo 360 |
| MouseProperties.WiggleOnEdge | action_plugins/map_to_mouse_ex/__init__.py:502-509 | a wiggle-on button starts the wiggle exactly when exec_on_release differs from the pressed flag, and outputs nothing |
| MouseProperties.WiggleOffEdge | action_plugins/map_to_mouse_ex/__init__.py:510-516 | a wiggle-off button stops the wiggle under the same edge condition, and outputs nothing |
| MouseProperties.ButtonInputIgnoresMouseModes | action_plugins/map_to_mouse_ex/__init__.py:500-518 | with a button input, the mouse-button and mouse-motion modes do nothing and return True |
| MouseProperties.WiggleModesNeedButtonInput | action_plugins/map_to_mouse_ex/__init__.py:519-529 | with any other input, the wiggle modes do nothing and return True |
| MouseProperties.UnsetModeIsInert | action_plugins/map_to_mouse_ex/__init__.py:500-529 | a mapping whose mode is None returns True, outputs nothing and leaves the wiggle alone |
| MouseProperties.UnknownModeIsInert | action_plugins/map_to_mouse_ex/__init__.py:741 | a profile whose mode text names no member loads, and the mapping is inert for every event, sample and routing |
| MouseProperties.NewActionOnlySwitchesWiggle | action_plugins/map_to_mouse_ex/__init__.py:713 | an action as constructed, whatever it is bound to and whatever mode the editor gives it, issues no mouse command itself; on a press it starts the wiggle in the wiggle-on mode and stops it in the wiggle-off mode, and otherwise leaves it alone |
| MouseProperties.Run | action_plugins/map_to_mouse_ex/__init__.py:496-529 | an empty run outputs nothing, and a run outputs at most two calls per event |
| MouseProperties.RunKeepsOneWorker | action_plugins/map_to_mouse_ex/__init__.py:469-471 | over any sequential run of events through any mappings sharing the wiggle, at most one worker is ever alive, and only while the handle is held |
| MouseProperties.RunFollowsLastSwitch | action_plugins/map_to_mouse_ex/__init__.py:500-516 | after any run, the wiggle runs iff the last mapping to switch it was a wiggle-on, or it ran before and none switched it |
| MouseProperties.RunRespectsRouting | action_plugins/map_to_mouse_ex/__init__.py:570-574 | every output of a run went to a sink that the routing snapshot of some step of that run enabled; a sink enabled by no step receives nothing |
| MouseProperties.RunStepRouted | action_plugins/map_to_mouse_ex/__init__.py:570-574 | each event appends its outputs to the run's, and they go only to sinks that event's own routing enabled |
| SimConnect.DefaultMode | action_plugins/map_to_simconnect/__init__.py:334-342 | an unset mode becomes Ranged for an axis input, else SetValue iff the block takes a value, else Trigger; a set mode is kept |
| SimConnect.ClampRange | action_plugins/map_to_simconnect/__init__.py:363-373 | afterwards min >= block min and max <= block max; the minimum moves only up to the block's; a maximum above the minimum becomes exactly the block's; any other maximum is the configured one, unchanged |
| SimConnect.ClampRangeIdempotent | action_plugins/map_to_simconnect/__init__.py:366-373 | fitting twice equals fitting once |
| SimConnect.ClampKeepsInvertedRange | action_plugins/map_to_simconnect/__init__.py:366-373 | the self-comparison never fires, so every inverted range lying inside the block (such as 50..-20 in -100..100) comes out unchanged |
| SimConnect.ClampWidensNarrowMaximum | action_plugins/map_to_simconnect/__init__.py:370-371 | a configured 0..50 in a -100..100 block becomes 0..100 |
| SimConnect.SelectBlock | action_plugins/map_to_simconnect/__init__.py:308-373 | a missing or invalid block changes nothing; a valid one defaults the mode, and a ranged one also fits the range |
| SimConnect.SelectBlockSettles | action_plugins/map_to_simconnect/__init__.py:334-373 | after a valid block is selected the mode is set, a ranged block bounds the range, and selecting it again changes nothing |
| SimConnect.NewAxisActionTakesBlockMaximum | action_plugins/map_to_simconnect/__init__.py:363-373 | a new axis action selecting a wider ranged block gets the ranged mode, keeps its default minimum and takes the block's maximum |
| SimConnect.ProcessEvent | action_plugins/map_to_simconnect/__init__.py:463-478 | a missing or invalid block returns False with no execution; an axis event returns True with none; otherwise a truthy sample executes once with the action's value and returns what execute returns, else True |
| SimConnect.HatCentreExecutes | action_plugins/map_to_simconnect/__init__.py:474-476 | a hat event handed the raw (0, 0) tuple still executes the command |
| SimConnect.ReleaseDoesNothing | action_plugins/map_to_simconnect/__init__.py:474-478 | a button release executes nothing and returns True |
| SimConnect.Validate | action_plugins/map_to_simconnect/__init__.py:51-55 | acceptable iff the upper-cased, stripped text is blank or is exactly a listed command |
| SimConnect.BlankIsAcceptable | action_plugins/map_to_simconnect/__init__.py:52-55 | whitespace-only text is acceptable |
| SimConnect.ValidateIgnoresCase | action_plugins/map_to_simconnect/__init__.py:52 | upper- or lower-casing the text never changes the verdict |
| SimConnect.ValidateIgnoresPadding | action_plugins/map_to_simconnect/__init__.py:52 | surrounding whitespace never changes the verdict |
| SimConnect.ListedCommandIsAcceptable | action_plugins/map_to_simconnect/__init__.py:52-55 | a listed upper-case command, typed in either case, is acceptable |
| SimConnect.RequiresVirtualButton | action_plugins/map_to_simconnect/__init__.py:540-549 | a virtual button is needed exactly for the inputs without a press edge: not for buttons or keys |

## Left out

- Qt widget construction, signal wiring, visibility and dialog geometry. This is UI glue; only the values the editor stores are modelled.
- Profile XML reading and writing. Only the "mode" attribute is modelled: its default, what an unknown name stores, and its round trip through to_string and from_string. The round trip starts from a stored member: a mapping loaded with mode None (an unknown name) cannot be written back, because line 772 reads `.name` of None and raises AttributeError.
- The wiggle worker's loop: sleeps, random 10-40 s deadlines, and the moves it makes. The thread itself is also left out. This is timing and concurrency; only the handle, the stop flag and the count of live workers are modelled.
- The mouse controller, `gremlin.sendinput` and the remote client. They are represented by the returned command values.
- `MouseAction.to_name` and `to_description`. These are display strings.
- `MouseAction._missing_` is not modelled as code, but it decides which exception a numeric mode of 4 or more raises. The enum lookup falls back to it, and it calls `.lower()` on the int, so from_string raises AttributeError, with the lookup's ValueError only as its context. The model records only that this case raises (`Rejected`).
- `SimConnectData`, `SimConnectBlock.execute`, and the contents of the command list. The block is an abstract record, execute is a parameter, and the list is an argument.
- The prefix-match branch of the command validator, which decides between intermediate and invalid. Its verdict is left as `Undecided`.
- gremlin/shared_state.py and action_plugins/previous_mode/__init__.py. They hold global flags and a UI label with no sequential logic.
- gremlin/common.py is not part of this model. Mouse buttons other than the two wheels are carried by their numeric identifier, and `InputType` has only the four kinds these plugins use. The SimConnect action modes are the four the plugin names.
- Text: case mapping and digits are ASCII only. Python's lower(), upper() and isnumeric() also act on non-ASCII text: for example 'ß'.upper() is "SS", and Arabic-Indic digits are numeric. Whitespace is the full set that str.isspace() accepts.
- Floating point: axis values, speeds as reals, and the 0.05 dead zone are exact rationals. Negative zero is not modelled. The deflection is -0.0 only inside the dead zone, but the delta can be -0.0 outside it too: with speeds 0..0 and a negative deflection, copysign at line 565 gives -0.0 and line 566 keeps it. Python compares -0.0 equal to 0.0, so the model's 0.0 stands for both.
- The hat branch reads routing from the remote client's own flags, while the other branches read the shared remote state. The model passes one routing snapshot to every branch.
- An exception raised by process_event ends that dispatch. In `MouseProperties.Run`, a raising dispatch outputs nothing and the run goes on with the next event. Propagation beyond the functor is not modelled.
- MouseFunctor.HatAngle: gives the exact angle for the eight hat positions, not the rounded floating-point result of atan2 and rad2deg.
- SimConnect.RequiresVirtualButton: states the rule over the four input kinds modelled, not over every kind gremlin/common.py defines.
- MouseConfig.inputType: the functor's `input_type` attribute is a free field of the model, so the dispatch lemmas cover every value it could hold. This plugin assigns it only at line 713, to JoystickButton; whether the base class reassigns it is not part of this model.
- MouseSettings.LoadMode: from_string's AttributeError (raised by `_missing_` calling `.lower()` on the int) is modelled as an entry that does not load; what the profile loader does with the exception is not modelled.
- MouseActions.IgnoresCase: holds under the ASCII case mapping only. In Python, from_string("mousewıggleon") with a dotless ı gives None, while its upper() text parses to MouseWiggleOn.
- SimConnect.ValidateIgnoresCase: holds under the ASCII case mapping only, for the same reason as MouseActions.IgnoresCase.
- MouseProperties.RunKeepsOneWorker: assumes dispatches run one after another. `_wiggle_start` checks the handle and then sets it (lines 624-629) with no lock, so two overlapping starts could spawn two workers, one of which is never joined.
- MouseProperties.EditedModeNeverAsserts: assumes the functor is rebuilt after every edit of the action. The functor copies `input_type`, `exec_on_release` and `action_mode` when it is built (lines 486-488), but reads `motion_input`, the button, the direction, the speeds and the ramp time from the action at every dispatch (lines 532-619). The model has one record for both. A functor built in MouseButton mode whose action is then switched to MouseMotion in the editor still takes the MouseButton branch, now with `motion_input` true, and fails the assertion at line 532.

=== FILE: gremlin.dfy ===
/** Runtime vocabulary shared by the action plugins: the kinds of input an
    action is bound to, the event and sample a functor receives, Python
    truthiness of a sample, and the local/remote routing snapshot. */
module Gremlin {

  datatype Option<+T> = None | Some(value: T)

  /** The kinds of physical input an action can be bound to. */
  datatype InputType = JoystickAxis | JoystickButton | JoystickHat | Keyboard

  /** One component of a hat position: -1, 0 or +1. */
  newtype HatAxis = x: int | -1 <= x <= 1

  /** The current value of the event chain handed to a functor. Its shape is
      not tied to the event kind: an axis or hat bound through a virtual
      button delivers a flag. */
  datatype Sample =
    | Flag(on: bool)
    | Axis(deflection: real)
    | Hat(x: HatAxis, y: HatAxis)

  /** The physical event: its kind and, for buttons and keys, its edge. */
  datatype Event = Event(kind: InputType, isPressed: bool)

  /** Python truthiness of a sample. A hat position is a two-element tuple,
      and a non-empty tuple is true even at the centre (0, 0). */
  predicate Truthy(s: Sample) {
    match s
    case Flag(on) => on
    case Axis(d) => d != 0.0
    case Hat(_, _) => true
  }

  /** Which output sinks one dispatch writes to, read once per dispatch.
      Both may be set at the same time (mirrored output). */
  datatype Routing = Routing(isLocal: bool, isRemote: bool)

  function Abs(x: real): (r: real)
    ensures r >= 0.0 && (r == x || r == -x)
  {
    if x < 0.0 then -x else x
  }
}

=== FILE: mouse_action.dfy ===
/** The map-to-mouse action modes and their two textual forms: the member
    name written to a profile, and the numeric value str() yields. Parsing
    accepts either, ignoring case and surrounding whitespace. */
module MouseActions {
  import opened Gremlin
  import opened Text

  datatype MouseAction = MouseButton | MouseMotion | MouseWiggleOn | MouseWiggleOff

  /** The members in declaration order, the order `for item in MouseAction` visits. */
  const AllActions: seq<MouseAction> := [MouseButton, MouseMotion, MouseWiggleOn, MouseWiggleOff]

  /** The enum value of a member. */
  function Value(m: MouseAction): nat {
    match m
    case MouseButton => 0
    case MouseMotion => 1
    case MouseWiggleOn => 2
    case MouseWiggleOff => 3
  }

  /** The member name (to_string, and the "mode" attribute of a profile). */
  function ToString(m: MouseAction): (r: string)
    // a name never looks like a value's text
    ensures |r| > 0 && !IsDigit(r[0])
    ensures forall m' :: Str(m') != r
  {
    match m
    case MouseButton => "MouseButton"
    case MouseMotion => "MouseMotion"
    case MouseWiggleOn => "MouseWiggleOn"
    case MouseWiggleOff => "MouseWiggleOff"
  }

  /** str() of a member: its numeric value in decimal. */
  function Str(m: MouseAction): (r: string)
    ensures IsNumeric(r) && DigitsValue(r) == Value(m)
  {
    match m
    case MouseButton => "0"
    case MouseMotion => "1"
    case MouseWiggleOn => "2"
    case MouseWiggleOff => "3"
  }

  /** Looking a member up by value, as MouseAction(n) does. */
  function FromValue(n: nat): (r: Option<MouseAction>)
    ensures r.Some? <==> n < |AllActions|
    ensures r.Some? ==> Value(r.value) == n
  {
    if n < |AllActions| then Some(AllActions[n]) else None
  }

  /** The member name in lower case, the form from_string compares against. */
  function LowerName(m: MouseAction): string {
    match m
    case MouseButton => "mousebutton"
    case MouseMotion => "mousemotion"
    case MouseWiggleOn => "mousewiggleon"
    case MouseWiggleOff => "mousewiggleoff"
  }

  /** Names tell members apart, even once lower-cased, so the first match
      from_string finds is the only one. */
  lemma NamesAreDistinct(m1: MouseAction, m2: MouseAction)
    ensures ToString(m1) == ToString(m2) ==> m1 == m2
    ensures LowerName(m1) == LowerName(m2) ==> m1 == m2
  {
  }

  lemma LowerNameIsLowered(m: MouseAction)
    ensures Lower(ToString(m)) == LowerName(m)
  {
    var name, lowered := ToString(m), LowerName(m);
    assert |Lower(name)| == |lowered|;
    forall i | 0 <= i < |name| ensures LowerChar(name[i]) == lowered[i] {
    }
  }

  /** What from_string yields: a member, no match (None), or a numeric value
      that names no member. For the last, the enum lookup falls back to
      `_missing_`, which calls `.lower()` on the int and so raises
      AttributeError (the lookup's ValueError is only its context). */
  datatype Parsed = Found(action: MouseAction) | NotFound | Rejected(value: nat)

  /** The text from_string compares: lower-cased, then stripped. */
  function Clean(s: string): string {
    Strip(Lower(s))
  }

  /** The first candidate whose lower-cased name equals `clean`. */
  function MatchName(clean: string, candidates: seq<MouseAction>): (r: Option<MouseAction>)
    ensures r.Some? ==> r.value in candidates && LowerName(r.value) == clean
    ensures r.None? ==> forall m :: m in candidates ==> LowerName(m) != clean
    decreases |candidates|
  {
    if |candidates| == 0 then None
    else if LowerName(candidates[0]) == clean then Some(candidates[0])
    else MatchName(clean, candidates[1..])
  }

  /** The lookup from_string performs on cleaned text: decimal text goes
      through the value lookup, anything else is matched against the names. */
  function Lookup(clean: string): (r: Parsed)
    ensures r.Rejected? ==> IsNumeric(clean) && r.value >= |AllActions|
    ensures r.NotFound? ==> !IsNumeric(clean)
  {
    if IsNumeric(clean) then
      var n := DigitsValue(clean);
      match FromValue(n)
      case Some(m) => Found(m)
      case None => Rejected(n)
    else
      match MatchName(clean, AllActions)
      case Some(m) => Found(m)
      case None => NotFound
  }

  /** from_string. */
  function FromString(s: string): (r: Parsed)
    ensures r.Found? ==> Denotes(Clean(s), r.action)
    ensures r.Rejected? ==> IsNumeric(Clean(s)) && r.value >= |AllActions|
    ensures r.NotFound? ==> !IsNumeric(Clean(s))
  {
    LookupMeaning(Clean(s));
    Lookup(Clean(s))
  }

  /** Reference reading of a cleaned string: it denotes a member when it is
      that member's value in decimal or that member's lower-cased name. */
  predicate Denotes(clean: string, m: MouseAction) {
    || (IsNumeric(clean) && DigitsValue(clean) == Value(m))
    || clean == LowerName(m)
  }

  lemma NamesAreNotNumeric(m: MouseAction)
    ensures !IsNumeric(LowerName(m))
  {
    assert LowerName(m)[0] == 'm';
  }

  lemma LookupMeaning(clean: string)
    ensures forall m: MouseAction :: Lookup(clean) == Found(m) <==> Denotes(clean, m)
    ensures Lookup(clean).Rejected? <==> IsNumeric(clean) && DigitsValue(clean) >= |AllActions|
  {
    if IsNumeric(clean) {
      forall m: MouseAction ensures Lookup(clean) == Found(m) <==> Denotes(clean, m) {
        NamesAreNotNumeric(m);
      }
    } else {
      forall m: MouseAction ensures Lookup(clean) == Found(m) <==> Denotes(clean, m) {
        assert AllActions[Value(m)] == m;
      }
    }
  }

  /** from_string finds exactly the member the text denotes, and raises
      exactly for decimal text that is no member's value. */
  lemma FromStringMeaning(s: string)
    ensures forall m: MouseAction :: FromString(s) == Found(m) <==> Denotes(Clean(s), m)
    ensures FromString(s).Rejected? <==> IsNumeric(Clean(s)) && DigitsValue(Clean(s)) >= |AllActions|
  {
    LookupMeaning(Clean(s));
  }

  /** The attribute default used when a profile has no "mode". */
  const DefaultModeAttribute := "mousebutton"

  /** Reading the "mode" attribute of a profile entry. */
  function ParseModeAttribute(attr: Option<string>): Parsed {
    FromString(if attr.Some? then attr.value else DefaultModeAttribute)
  }

  /** A profile entry without a "mode" attribute is a mouse-button mapping. */
  lemma MissingModeIsMouseButton()
    ensures ParseModeAttribute(None) == Found(MouseButton)
  {
    var text := DefaultModeAttribute;
    assert text == LowerName(MouseButton);
    assert Lower(text) == text by {
      forall i | 0 <= i < |text| ensures LowerChar(text[i]) == text[i] {
      }
    }
    StripUnpadded(text);
    FromStringMeaning(text);
    assert Denotes(Clean(text), MouseButton);
  }

  /** to_string then from_string gives the member back. */
  lemma NameRoundTrip(m: MouseAction)
    ensures FromString(ToString(m)) == Found(m)
  {
    LowerNameIsLowered(m);
    StripUnpadded(LowerName(m));
    FromStringMeaning(ToString(m));
    assert Denotes(Clean(ToString(m)), m);
  }

  /** str() then from_string gives the member back. */
  lemma ValueRoundTrip(m: MouseAction)
    ensures FromString(Str(m)) == Found(m)
  {
    assert Lower(Str(m)) == Str(m);
    StripUnpadded(Str(m));
    assert DigitsValue(Str(m)) == Value(m);
    FromStringMeaning(Str(m));
    assert Denotes(Clean(Str(m)), m);
  }

  /** Writing the mode to a profile and reading it back is lossless. */
  lemma ProfileModeRoundTrip(m: MouseAction)
    ensures ParseModeAttribute(Some(ToString(m))) == Found(m)
  {
    NameRoundTrip(m);
  }

  /** Matching ignores case: upper- or lower-casing the input changes nothing. */
  lemma IgnoresCase(s: string)
    ensures FromString(Upper(s)) == FromString(s)
    ensures FromString(Lower(s)) == FromString(s)
  {
    assert Lower(Upper(s)) == Lower(s);
    assert Lower(Lower(s)) == Lower(s);
  }

  /** Matching ignores surrounding whitespace. */
  lemma IgnoresPadding(w1: string, s: string, w2: string)
    requires AllSpace(w1) && AllSpace(w2)
    ensures FromString(w1 + s + w2) == FromString(s)
  {
    LowerConcat(w1 + s, w2);
    LowerConcat(w1, s);
    LowerKeepsSpace(w1);
    LowerKeepsSpace(w2);
    StripPadding(w1, Lower(s), w2);
  }

  /** Text that is neither numeric nor a member name yields None. */
  lemma UnknownNameIsNotFound(s: string)
    requires !IsNumeric(Clean(s))
    requires forall m :: LowerName(m) != Clean(s)
    ensures FromString(s) == NotFound
  {
    FromStringMeaning(s);
    assert forall m :: !Denotes(Clean(s), m);
  }
}

=== FILE: mouse_functor.dfy ===
/** The map-to-mouse functor: what one input event makes it do. Every output
    call is returned as a command value tagged with the sink it goes to, the
    local mouse controller or the remote client, so "which calls happen, in
    which order, and nothing else" is part of each result. */
module MouseFunctor {
  import opened Gremlin
  import opened MouseActions
  import opened MouseSettings
  import opened Wiggle

  datatype Sink = Local | Remote

  /** One call on an output sink. Locally these are the mouse controller and
      input injection calls; remotely the same calls are forwarded (a press or
      release travels as the button's identifier with a pressed flag). A
      motion component that is None leaves that axis alone. */
  datatype Call =
    | Wheel(ticks: int)
    | Press(button: ButtonId)
    | Release(button: ButtonId)
    | Motion(dx: Option<real>, dy: Option<real>)
    | Accel(direction: real, minSpeed: int, maxSpeed: int, rampTime: real)

  datatype Command = Command(sink: Sink, call: Call)

  /** The zero-motion call that ends a ramped motion. */
  const Halt := Motion(Some(0.0), Some(0.0))

  /** Every command goes to a sink the routing enables. */
  predicate Routed(cmds: seq<Command>, routing: Routing) {
    forall c :: c in cmds ==> (c.sink == Local ==> routing.isLocal) && (c.sink == Remote ==> routing.isRemote)
  }

  /** At most one command per sink, the local one first. */
  predicate OnePerSink(cmds: seq<Command>) {
    && |cmds| <= 2
    && (|cmds| == 2 ==> cmds[0].sink == Local && cmds[1].sink == Remote)
  }

  /** Sends one call to every enabled sink, the local one first. */
  function Route(routing: Routing, call: Call): (r: seq<Command>)
    ensures Command(Local, call) in r <==> routing.isLocal
    ensures Command(Remote, call) in r <==> routing.isRemote
    ensures forall c :: c in r ==> c.call == call
    ensures Routed(r, routing)
    ensures |r| == (if routing.isLocal then 1 else 0) + (if routing.isRemote then 1 else 0)
    ensures |r| == 2 ==> r[0].sink == Local && r[1].sink == Remote
    ensures OnePerSink(r)
  {
    (if routing.isLocal then [Command(Local, call)] else [])
    + (if routing.isRemote then [Command(Remote, call)] else [])
  }

  /** The Python exceptions a dispatch can raise before any output: the
      assertion that a mouse-button action is not a motion input, and the
      type error of taking abs() or an index of the wrong kind of sample. */
  datatype Fault = AssertionFailed | TypeError

  datatype Emission = Emitted(commands: seq<Command>) | Raised(fault: Fault)

  predicate IsWheel(b: ButtonId) {
    b.WheelUp? || b.WheelDown?
  }

  /** Scroll amount of one wheel press: down scrolls by 1, up by -16. */
  function WheelTicks(b: ButtonId): int {
    if b.WheelDown? then 1 else -16
  }

  /** A mouse-button mapping: wheel buttons scroll on a true value and do
      nothing otherwise; other buttons press on a true value and release on
      a false one. */
  function PerformMouseButton(c: MouseConfig, current: Sample, routing: Routing): (r: Emission)
    ensures r.Raised? <==> c.motionInput
    ensures r.Raised? ==> r.fault == AssertionFailed
    ensures r.Emitted? ==> Routed(r.commands, routing) && OnePerSink(r.commands)
  {
    if c.motionInput then Raised(AssertionFailed)
    else if IsWheel(c.button) then
      Emitted(if Truthy(current) then Route(routing, Wheel(WheelTicks(c.button))) else [])
    else
      Emitted(Route(routing, if Truthy(current) then Press(c.button) else Release(c.button)))
  }

  /** Axis deflections below this magnitude move nothing. */
  const DeadZone: real := 0.05

  /** math.copysign: the magnitude of m with the sign of s. */
  function CopySign(m: real, s: real): (r: real)
    ensures Abs(r) == Abs(m)
    ensures s < 0.0 ==> r <= 0.0
    ensures s >= 0.0 ==> r >= 0.0
  {
    if s < 0.0 then -Abs(m) else Abs(m)
  }

  /** The one-shot motion for an axis deflection v: the speed interpolated
      between the bounds by |v|, signed like v, and zero in the dead zone. */
  function AxisDelta(minSpeed: int, maxSpeed: int, v: real): (r: real)
    ensures Abs(v) < DeadZone ==> r == 0.0
    // the motion never goes against the deflection
    ensures v < 0.0 ==> r <= 0.0
    ensures v >= 0.0 ==> r >= 0.0
  {
    var delta := CopySign(minSpeed as real + Abs(v) * (maxSpeed - minSpeed) as real, v);
    if Abs(v) < DeadZone then 0.0 else delta
  }

  /** The axis motion call: direction 90 drives dx, any other direction dy. */
  function AxisMotion(direction: int, delta: real): Call {
    Motion(if direction == 90 then Some(delta) else None, if direction != 90 then Some(delta) else None)
  }

  /** What abs() and copysign() make of a sample: a bool counts as 1 or 0,
      a hat tuple is refused. */
  function AsNumber(s: Sample): Option<real> {
    match s
    case Flag(on) => Some(if on then 1.0 else 0.0)
    case Axis(d) => Some(d)
    case Hat(_, _) => None
  }

  function PerformAxisMotion(c: MouseConfig, current: Sample, routing: Routing): (r: Emission)
    ensures r.Raised? <==> current.Hat?
    ensures r.Raised? ==> r.fault == TypeError
    ensures r.Emitted? ==> Routed(r.commands, routing) && OnePerSink(r.commands)
    ensures r.Emitted? ==> forall cmd :: cmd in r.commands ==>
      cmd.call.Motion? && (cmd.call.dx.Some? <==> c.direction == 90) && (cmd.call.dy.Some? <==> c.direction != 90)
  {
    match AsNumber(current)
    case None => Raised(TypeError)
    case Some(v) => Emitted(Route(routing, AxisMotion(c.direction, AxisDelta(c.minSpeed, c.maxSpeed, v))))
  }

  /** A button or key driving motion: ramp up while pressed, halt on release. */
  function PerformButtonMotion(c: MouseConfig, pressed: bool, routing: Routing): (r: seq<Command>)
    ensures Routed(r, routing) && OnePerSink(r)
    ensures pressed ==> forall cmd :: cmd in r ==> cmd.call.Accel?
    ensures !pressed ==> forall cmd :: cmd in r ==> cmd.call == Halt
  {
    if pressed then Route(routing, Accel(c.direction as real, c.minSpeed, c.maxSpeed, c.timeToMaxSpeed))
    else Route(routing, Halt)
  }

  /** The motion direction of a hat position in degrees, 0 being up and 90
      right: the exact value of atan2(-y, x) in degrees plus 90 for the
      eight positions a hat reports. It is not normalised: up-left is -45. */
  function HatAngle(x: HatAxis, y: HatAxis): (a: int)
    requires x != 0 || y != 0
    ensures -90 < a < 360 && a % 45 == 0
  {
    if x == 0 then (if y == 1 then 0 else 180)
    else if x == 1 then (if y == 1 then 45 else if y == 0 then 90 else 135)
    else (if y == 1 then -45 else if y == 0 then 270 else 225)
  }

  /** A hat driving motion: halt at the centre, otherwise ramp in the hat's
      direction. A sample that is not a hat tuple cannot be indexed. */
  function PerformHatMotion(c: MouseConfig, current: Sample, routing: Routing): (r: Emission)
    ensures r.Raised? <==> !current.Hat?
    ensures r.Raised? ==> r.fault == TypeError
    ensures r.Emitted? ==> Routed(r.commands, routing) && OnePerSink(r.commands)
  {
    match current
    case Hat(x, y) =>
      if x == 0 && y == 0 then Emitted(Route(routing, Halt))
      else Emitted(Route(routing, Accel(HatAngle(x, y) as real, c.minSpeed, c.maxSpeed, c.timeToMaxSpeed)))
    case _ => Raised(TypeError)
  }

  /** The edge a wiggle mapping acts on: the release when exec-on-release is
      set, the press otherwise. */
  predicate Fires(execOnRelease: bool, pressed: bool) {
    (execOnRelease && !pressed) || (!execOnRelease && pressed)
  }

  /** The result of process_event: the returned flag, the output calls in
      order and the shared wiggle state afterwards; or the exception raised,
      in which case nothing was output and the wiggle state is untouched. */
  datatype Outcome =
    | Handled(result: bool, commands: seq<Command>, wiggle: WiggleState)
    | Failed(fault: Fault)

  function Finish(e: Emission, w: WiggleState): (r: Outcome)
    ensures r.Failed? <==> e.Raised?
    ensures r.Handled? ==> r.result && r.commands == e.commands && r.wiggle == w
  {
    match e
    case Emitted(cmds) => Handled(true, cmds, w)
    case Raised(f) => Failed(f)
  }

  /** When process_event raises: a mouse-button action flagged as motion
      input, or a motion action fed the wrong kind of sample. A button input
      never raises, whatever its mode. */
  predicate Raises(c: MouseConfig, event: Event, current: Sample) {
    && c.inputType != JoystickButton
    && (|| (c.mode == Some(MouseButton) && c.motionInput)
        || (c.mode == Some(MouseMotion) && event.kind == JoystickAxis && current.Hat?)
        || (c.mode == Some(MouseMotion) && event.kind == JoystickHat && !current.Hat?))
  }

  /** process_event. A button input only ever starts or stops the wiggle; for
      other inputs the mode picks motion (by event kind) or a mouse button.
      A mode matching no branch, None included, does nothing. */
  function ProcessEvent(c: MouseConfig, event: Event, current: Sample, routing: Routing, w: WiggleState): (r: Outcome)
    ensures r.Handled? ==> r.result
    ensures r.Failed? <==> Raises(c, event, current)
    ensures r.Handled? ==> Routed(r.commands, routing) && OnePerSink(r.commands)
    ensures c.inputType == JoystickButton ==> r.Handled? && r.commands == []
    ensures c.inputType != JoystickButton && r.Handled? ==> r.wiggle == w
    ensures r.Handled? && Consistent(w) ==> Consistent(r.wiggle)
    // a mapping with no mode (a profile naming no member) is inert
    ensures c.mode.None? ==> r == Handled(true, [], w)
  {
    if c.inputType == JoystickButton then
      var fires := Fires(c.execOnRelease, event.isPressed);
      var next :=
        if c.mode == Some(MouseWiggleOn) && fires then Start(w)
        else if c.mode == Some(MouseWiggleOff) && fires then Stop(w)
        else w;
      Handled(true, [], next)
    else if c.mode == Some(MouseMotion) then
      if event.kind == JoystickAxis then Finish(PerformAxisMotion(c, current, routing), w)
      else if event.kind == JoystickHat then Finish(PerformHatMotion(c, current, routing), w)
      else Handled(true, PerformButtonMotion(c, event.isPressed, routing), w)
    else if c.mode == Some(MouseButton) then Finish(PerformMouseButton(c, current, routing), w)
    else Handled(true, [], w)
  }
}

=== FILE: mouse_properties.dfy ===
/** What the map-to-mouse functor promises: the axis motion formula and its
    bounds, the wheel and button translation, ramped motion on buttons and
    hats, the wiggle edges, and, over a whole run of events shared by many
    mappings, that the wiggle runs exactly when the last wiggle mapping to
    fire was a "wiggle on". */
module MouseProperties {
  import opened Gremlin
  import opened MouseActions
  import opened MouseSettings
  import opened Wiggle
  import opened MouseFunctor

  // ---------------------------------------------------------------- axis

  /** Inside the dead zone the delta is exactly zero, whatever the speeds. */
  lemma AxisDeadZone(minSpeed: int, maxSpeed: int, v: real)
    requires Abs(v) < DeadZone
    ensures AxisDelta(minSpeed, maxSpeed, v) == 0.0
  {
  }

  lemma ScaleBelow(a: real, k: real)
    requires 0.0 <= a <= 1.0 && k >= 0.0
    ensures 0.0 <= a * k <= k
  {
    assert k - a * k == (1.0 - a) * k;
  }

  /** Outside the dead zone the delta is the interpolated speed carrying the
      sign of the deflection, whenever that speed is not negative. This
      covers an inverted pair read from a profile as well: speeds 20..10 at
      deflection 0.5 move by 15. */
  lemma AxisFormula(minSpeed: int, maxSpeed: int, v: real)
    requires minSpeed as real + Abs(v) * (maxSpeed - minSpeed) as real >= 0.0
    requires Abs(v) >= DeadZone
    ensures var speed := minSpeed as real + Abs(v) * (maxSpeed - minSpeed) as real;
      AxisDelta(minSpeed, maxSpeed, v) == if v < 0.0 then -speed else speed
  {
  }

  /** The inverted pair 20..10 at half deflection moves by 15. */
  lemma AxisInvertedExample()
    ensures AxisDelta(20, 10, 0.5) == 15.0
  {
    AxisFormula(20, 10, 0.5);
  }

  /** The interpolated speed for a fraction in [0, 1] lies between the bounds. */
  lemma SpeedBetween(minSpeed: int, maxSpeed: int, a: real)
    requires 0 <= minSpeed <= maxSpeed && 0.0 <= a <= 1.0
    ensures minSpeed as real <= minSpeed as real + a * (maxSpeed - minSpeed) as real <= maxSpeed as real
  {
    ScaleBelow(a, (maxSpeed - minSpeed) as real);
  }

  /** For a deflection in [-1, 1] outside the dead zone, the magnitude lies
      between the two speed bounds. */
  lemma AxisMagnitudeBounds(minSpeed: int, maxSpeed: int, v: real)
    requires 0 <= minSpeed <= maxSpeed
    requires DeadZone <= Abs(v) <= 1.0
    ensures minSpeed as real <= Abs(AxisDelta(minSpeed, maxSpeed, v)) <= maxSpeed as real
  {
    SpeedBetween(minSpeed, maxSpeed, Abs(v));
    AxisFormula(minSpeed, maxSpeed, v);
  }

  /** A full deflection moves at the maximum speed. */
  lemma AxisFullDeflection(minSpeed: int, maxSpeed: int, v: real)
    requires 0 <= maxSpeed
    requires Abs(v) == 1.0
    ensures Abs(AxisDelta(minSpeed, maxSpeed, v)) == maxSpeed as real
  {
    AxisFormula(minSpeed, maxSpeed, v);
  }

  /** Mirroring the deflection mirrors the motion. */
  lemma AxisIsOdd(minSpeed: int, maxSpeed: int, v: real)
    ensures AxisDelta(minSpeed, maxSpeed, -v) == -AxisDelta(minSpeed, maxSpeed, v)
  {
    assert Abs(-v) == Abs(v);
  }

  lemma ScaleMonotone(a: real, b: real, k: real)
    requires 0.0 <= a <= b && k >= 0.0
    ensures a * k <= b * k
  {
    assert b * k - a * k == (b - a) * k;
  }

  /** The interpolated speed grows with the fraction. */
  lemma SpeedMonotone(minSpeed: int, maxSpeed: int, a1: real, a2: real)
    requires 0 <= minSpeed <= maxSpeed && 0.0 <= a1 <= a2
    ensures minSpeed as real + a1 * (maxSpeed - minSpeed) as real
         <= minSpeed as real + a2 * (maxSpeed - minSpeed) as real
  {
    ScaleMonotone(a1, a2, (maxSpeed - minSpeed) as real);
  }

  /** The interpolated speed never drops below the minimum. */
  lemma SpeedAtLeastMin(minSpeed: int, maxSpeed: int, a: real)
    requires 0 <= minSpeed <= maxSpeed && 0.0 <= a
    ensures minSpeed as real <= minSpeed as real + a * (maxSpeed - minSpeed) as real
  {
    var k := (maxSpeed - minSpeed) as real;
    assert a * k >= 0.0;
  }

  /** Outside the dead zone, a non-negative interpolated speed is the
      magnitude of the delta. */
  lemma AxisMagnitude(minSpeed: int, maxSpeed: int, v: real)
    requires minSpeed as real + Abs(v) * (maxSpeed - minSpeed) as real >= 0.0
    requires Abs(v) >= DeadZone
    ensures Abs(AxisDelta(minSpeed, maxSpeed, v)) == minSpeed as real + Abs(v) * (maxSpeed - minSpeed) as real
  {
    AxisFormula(minSpeed, maxSpeed, v);
  }

  /** A larger deflection never moves slower. */
  lemma AxisMonotone(minSpeed: int, maxSpeed: int, v1: real, v2: real)
    requires 0 <= minSpeed <= maxSpeed
    requires Abs(v1) <= Abs(v2)
    ensures Abs(AxisDelta(minSpeed, maxSpeed, v1)) <= Abs(AxisDelta(minSpeed, maxSpeed, v2))
  {
    if Abs(v1) < DeadZone {
      assert AxisDelta(minSpeed, maxSpeed, v1) == 0.0;
    } else {
      SpeedAtLeastMin(minSpeed, maxSpeed, Abs(v1));
      SpeedMonotone(minSpeed, maxSpeed, Abs(v1), Abs(v2));
      AxisMagnitude(minSpeed, maxSpeed, v1);
      AxisMagnitude(minSpeed, maxSpeed, v2);
    }
  }

  /** An X-axis mapping with speeds 5..15 at half deflection moves dx by 10
      and leaves dy alone. */
  lemma AxisExample(c: MouseConfig, routing: Routing)
    requires c.inputType == JoystickAxis && c.mode == Some(MouseMotion)
    requires c.direction == 90 && c.minSpeed == 5 && c.maxSpeed == 15
    ensures ProcessEvent(c, Event(JoystickAxis, false), Axis(0.5), routing, Idle)
         == Handled(true, Route(routing, Motion(Some(10.0), None)), Idle)
  {
  }

  /** An axis event sends the one-shot delta to every enabled sink, on dx
      for direction 90 and on dy otherwise. */
  lemma AxisMotionDispatch(c: MouseConfig, pressed: bool, v: real, routing: Routing, w: WiggleState)
    requires c.inputType != JoystickButton && c.mode == Some(MouseMotion)
    ensures var d := AxisDelta(c.minSpeed, c.maxSpeed, v);
      ProcessEvent(c, Event(JoystickAxis, pressed), Axis(v), routing, w)
      == Handled(true, Route(routing, Motion(if c.direction == 90 then Some(d) else None,
                                            if c.direction == 90 then None else Some(d))), w)
  {
  }

  // ------------------------------------------------------ mouse buttons

  /** A wheel button scrolls once on a true value: up by -16, down by +1. */
  lemma WheelPressScrolls(c: MouseConfig, event: Event, current: Sample, routing: Routing, w: WiggleState)
    requires c.inputType != JoystickButton && c.mode == Some(MouseButton) && !c.motionInput
    requires c.button == WheelUp || c.button == WheelDown
    requires Truthy(current)
    ensures c.button == WheelUp ==>
      ProcessEvent(c, event, current, routing, w) == Handled(true, Route(routing, Wheel(-16)), w)
    ensures c.button == WheelDown ==>
      ProcessEvent(c, event, current, routing, w) == Handled(true, Route(routing, Wheel(1)), w)
  {
  }

  /** A wheel button's release outputs nothing. */
  lemma WheelReleaseIsSilent(c: MouseConfig, event: Event, current: Sample, routing: Routing, w: WiggleState)
    requires c.inputType != JoystickButton && c.mode == Some(MouseButton) && !c.motionInput
    requires c.button == WheelUp || c.button == WheelDown
    requires !Truthy(current)
    ensures ProcessEvent(c, event, current, routing, w) == Handled(true, [], w)
  {
  }

  /** Any other button follows the value: press on true, release on false,
      sent once to each enabled sink, the local one first. */
  lemma ButtonFollowsValue(c: MouseConfig, event: Event, current: Sample, routing: Routing, w: WiggleState)
    requires c.inputType != JoystickButton && c.mode == Some(MouseButton) && !c.motionInput
    requires c.button.Plain?
    ensures ProcessEvent(c, event, current, routing, w)
         == Handled(true, Route(routing, if Truthy(current) then Press(c.button) else Release(c.button)), w)
  {
  }

  /** A mouse-button action flagged as motion input trips the assertion. */
  lemma MotionInputButtonRaises(c: MouseConfig, event: Event, current: Sample, routing: Routing, w: WiggleState)
    requires c.inputType != JoystickButton && c.mode == Some(MouseButton) && c.motionInput
    ensures ProcessEvent(c, event, current, routing, w) == Failed(AssertionFailed)
  {
  }

  /** A mode chosen through the editor never trips that assertion, for a
      functor built from the edited action. A functor built before the edit
      keeps its copied mode while reading motion_input afresh, which this
      single record does not model. */
  lemma EditedModeNeverAsserts(c: MouseConfig, mode: MouseAction, event: Event, current: Sample,
                               routing: Routing, w: WiggleState)
    ensures ProcessEvent(ChangeMode(c, mode), event, current, routing, w) != Failed(AssertionFailed)
  {
  }

  // ----------------------------------------------------- ramped motion

  /** A button or key driving motion ramps with exactly the configured
      direction, speeds and ramp time while pressed, and halts on release. */
  lemma ButtonMotionDispatch(c: MouseConfig, event: Event, current: Sample, routing: Routing, w: WiggleState)
    requires c.inputType != JoystickButton && c.mode == Some(MouseMotion)
    requires event.kind == JoystickButton || event.kind == Keyboard
    ensures event.isPressed ==> (ProcessEvent(c, event, current, routing, w)
      == Handled(true, Route(routing, Accel(c.direction as real, c.minSpeed, c.maxSpeed, c.timeToMaxSpeed)), w))
    ensures !event.isPressed ==> (ProcessEvent(c, event, current, routing, w)
      == Handled(true, Route(routing, Motion(Some(0.0), Some(0.0))), w))
  {
  }

  /** A hat back at the centre halts the motion; any other position ramps
      in the hat's direction with the configured speeds. */
  lemma HatMotionDispatch(c: MouseConfig, pressed: bool, x: HatAxis, y: HatAxis, routing: Routing, w: WiggleState)
    requires c.inputType != JoystickButton && c.mode == Some(MouseMotion)
    ensures x == 0 && y == 0 ==> (ProcessEvent(c, Event(JoystickHat, pressed), Hat(x, y), routing, w)
      == Handled(true, Route(routing, Motion(Some(0.0), Some(0.0))), w))
    ensures (x != 0 || y != 0) ==> (ProcessEvent(c, Event(JoystickHat, pressed), Hat(x, y), routing, w)
      == Handled(true, Route(routing, Accel(HatAngle(x, y) as real, c.minSpeed, c.maxSpeed, c.timeToMaxSpeed)), w))
  {
  }

  /** Hat angles follow the compass: up is 0, and turning the hat a quarter
      turn clockwise adds 90 degrees (modulo 360). */
  lemma HatAngleIsCompass(x: HatAxis, y: HatAxis)
    requires x != 0 || y != 0
    ensures HatAngle(0, 1) == 0 && HatAngle(1, 1) == 45
    ensures HatAngle(-1, 1) == -45
    ensures (HatAngle(y, -x) - HatAngle(x, y)) % 360 == 90
  {
  }

  // ------------------------------------------------------------ wiggle

  /** A "wiggle on" button starts the wiggle exactly on its firing edge
      (release with exec-on-release, press without) and otherwise leaves it. */
  lemma WiggleOnEdge(c: MouseConfig, event: Event, current: Sample, routing: Routing, w: WiggleState)
    requires c.inputType == JoystickButton && c.mode == Some(MouseWiggleOn)
    ensures var r := ProcessEvent(c, event, current, routing, w);
      r.Handled? && r.result && r.commands == []
      && r.wiggle == if c.execOnRelease != event.isPressed then Start(w) else w
  {
  }

  /** A "wiggle off" button stops the wiggle exactly on its firing edge. */
  lemma WiggleOffEdge(c: MouseConfig, event: Event, current: Sample, routing: Routing, w: WiggleState)
    requires c.inputType == JoystickButton && c.mode == Some(MouseWiggleOff)
    ensures var r := ProcessEvent(c, event, current, routing, w);
      r.Handled? && r.result && r.commands == []
      && r.wiggle == if c.execOnRelease != event.isPressed then Stop(w) else w
  {
  }

  /** Bound to a button input, the mouse-button and motion modes do nothing. */
  lemma ButtonInputIgnoresMouseModes(c: MouseConfig, event: Event, current: Sample, routing: Routing, w: WiggleState)
    requires c.inputType == JoystickButton
    requires c.mode == Some(MouseButton) || c.mode == Some(MouseMotion)
    ensures ProcessEvent(c, event, current, routing, w) == Handled(true, [], w)
  {
  }

  /** Bound to anything but a button input, the wiggle modes do nothing. */
  lemma WiggleModesNeedButtonInput(c: MouseConfig, event: Event, current: Sample, routing: Routing, w: WiggleState)
    requires c.inputType != JoystickButton
    requires c.mode == Some(MouseWiggleOn) || c.mode == Some(MouseWiggleOff)
    ensures ProcessEvent(c, event, current, routing, w) == Handled(true, [], w)
  {
  }

  // ----------------------------------------------------- unset modes

  /** A mapping with no mode does nothing, whatever the event. */
  lemma UnsetModeIsInert(c: MouseConfig, event: Event, current: Sample, routing: Routing, w: WiggleState)
    requires c.mode.None?
    ensures ProcessEvent(c, event, current, routing, w) == Handled(true, [], w)
  {
  }

  /** A profile whose mode text names no member loads, and the mapping it
      yields outputs nothing and leaves the wiggle alone for every event. */
  lemma UnknownModeIsInert(c: MouseConfig, s: string, event: Event, current: Sample,
                           routing: Routing, w: WiggleState)
    requires FromString(s) == NotFound
    ensures LoadMode(c, Some(s)).Some?
    ensures ProcessEvent(LoadMode(c, Some(s)).value, event, current, routing, w) == Handled(true, [], w)
  {
    assert ParseModeAttribute(Some(s)) == NotFound;
  }

  /** As constructed, an action's `input_type` attribute is JoystickButton
      whatever it is bound to, and neither the editor nor profile loading
      changes it: such an action issues no mouse command itself in any mode.
      In the two wiggle modes it still starts or stops the wiggle, whose
      worker moves the mouse; in the other modes it does nothing at all. */
  lemma NewActionOnlySwitchesWiggle(bound: InputType, mode: MouseAction, event: Event, current: Sample,
                                    routing: Routing, w: WiggleState)
    ensures var r := ProcessEvent(ChangeMode(NewAction(bound), mode), event, current, routing, w);
      && r.Handled? && r.commands == []
      && r.wiggle == (if mode == MouseWiggleOn && event.isPressed then Start(w)
                      else if mode == MouseWiggleOff && event.isPressed then Stop(w)
                      else w)
  {
  }

  // ------------------------------------------------------- event runs

  /** One dispatch in a run: the mapping, its event and sample, and the
      routing snapshot read for it. */
  datatype Step = Step(config: MouseConfig, event: Event, current: Sample, routing: Routing)

  datatype Trace = Trace(wiggle: WiggleState, commands: seq<Command>)

  /** Dispatching a run of events in order through their mappings, all
      sharing one wiggle state. A dispatch that raises outputs nothing and
      leaves the wiggle state as it was. */
  function Run(steps: seq<Step>, w: WiggleState): (r: Trace)
    ensures steps == [] ==> r == Trace(w, [])
    // each dispatch outputs at most one call per sink
    ensures |r.commands| <= 2 * |steps|
    decreases |steps|
  {
    if |steps| == 0 then Trace(w, [])
    else
      var prev := Run(steps[..|steps| - 1], w);
      var s := steps[|steps| - 1];
      match ProcessEvent(s.config, s.event, s.current, s.routing, prev.wiggle)
      case Handled(_, cmds, next) => Trace(next, prev.commands + cmds)
      case Failed(_) => prev
  }

  /** Whether a step switches the wiggle: Some(true) for a "wiggle on"
      button on its firing edge, Some(false) for a "wiggle off" one. */
  function Switch(s: Step): Option<bool> {
    if s.config.inputType == JoystickButton && s.config.execOnRelease != s.event.isPressed then
      if s.config.mode == Some(MouseWiggleOn) then Some(true)
      else if s.config.mode == Some(MouseWiggleOff) then Some(false)
      else None
    else None
  }

  /** Reference answer: the wiggle runs after a run iff the last switching
      step switched it on (or, with none, iff it ran before). */
  function RunningAfter(steps: seq<Step>, before: bool): bool
    decreases |steps|
  {
    if |steps| == 0 then before
    else match Switch(steps[|steps| - 1])
      case Some(on) => on
      case None => RunningAfter(steps[..|steps| - 1], before)
  }

  /** However many mappings share it, the wiggle stays consistent: at most
      one worker, alive exactly while the handle is held. */
  lemma {:induction false} RunKeepsOneWorker(steps: seq<Step>, w: WiggleState)
    requires Consistent(w)
    ensures Consistent(Run(steps, w).wiggle)
    ensures Run(steps, w).wiggle.workers <= 1
    decreases |steps|
  {
    if |steps| > 0 {
      RunKeepsOneWorker(steps[..|steps| - 1], w);
    }
  }

  /** The wiggle runs after a run exactly when the reference says so. */
  lemma {:induction false} RunFollowsLastSwitch(steps: seq<Step>, w: WiggleState)
    ensures Run(steps, w).wiggle.handle == RunningAfter(steps, w.handle)
    decreases |steps|
  {
    if |steps| > 0 {
      RunFollowsLastSwitch(steps[..|steps| - 1], w);
    }
  }

  /** Every output of a run went to a sink that the routing of some step of
      the run enabled. */
  lemma {:induction false} RunRespectsRouting(steps: seq<Step>, w: WiggleState)
    ensures forall cmd :: cmd in Run(steps, w).commands ==>
      exists s :: s in steps && ((cmd.sink == Local ==> s.routing.isLocal) && (cmd.sink == Remote ==> s.routing.isRemote))
    decreases |steps|
  {
    if |steps| > 0 {
      var init := steps[..|steps| - 1];
      var s := steps[|steps| - 1];
      RunRespectsRouting(init, w);
      var prev := Run(init, w);
      match ProcessEvent(s.config, s.event, s.current, s.routing, prev.wiggle)
      case Handled(_, cmds, next) =>
        forall cmd | cmd in prev.commands + cmds
          ensures exists s' :: s' in steps && ((cmd.sink == Local ==> s'.routing.isLocal) && (cmd.sink == Remote ==> s'.routing.isRemote))
        {
          if cmd in prev.commands {
            var s' :| s' in init && ((cmd.sink == Local ==> s'.routing.isLocal) && (cmd.sink == Remote ==> s'.routing.isRemote));
            assert s' in steps;
          } else {
            assert s in steps;
          }
        }
      case Failed(_) =>
        forall cmd | cmd in prev.commands
          ensures exists s' :: s' in steps && ((cmd.sink == Local ==> s'.routing.isLocal) && (cmd.sink == Remote ==> s'.routing.isRemote))
        {
          var s' :| s' in init && ((cmd.sink == Local ==> s'.routing.isLocal) && (cmd.sink == Remote ==> s'.routing.isRemote));
          assert s' in steps;
        }
    }
  }

  /** Each step appends its own outputs to the run's, and those outputs go
      only to sinks that step's own routing enabled. */
  lemma RunStepRouted(steps: seq<Step>, s: Step, w: WiggleState)
    ensures var before := Run(steps, w).commands;
      var after := Run(steps + [s], w).commands;
      before <= after && Routed(after[|before|..], s.routing)
  {
    assert (steps + [s])[..|steps|] == steps;
    assert (steps + [s])[|steps|] == s;
  }
}

=== FILE: mouse_settings.dfy ===
/** The configuration of one map-to-mouse action, and the pure logic the
    configuration editor applies to it: keeping the speed bounds ordered when
    one of them is edited, deriving the motion-input flag from the mode, and
    deciding whether the action needs a virtual button. */
module MouseSettings {
  import opened Gremlin
  import opened MouseActions

  /** The mouse button an action presses. Only the two wheel buttons are told
      apart; every other button is carried by its numeric identifier. */
  datatype ButtonId = WheelUp | WheelDown | Plain(code: int)

  /** The stored action data. Speeds are pixels per second, the direction is
      in degrees (0 is up, 90 is right), the ramp time is in seconds.

      Two input kinds are kept apart. `inputType` is the action's own
      `input_type` attribute, the one process_event dispatches on. The
      constructor sets it to JoystickButton, and nothing in the plugin
      assigns it again. `boundInput` is the kind of input the action is bound
      to, which the editor and requires_virtual_button ask the container for.

      `mode` is None when a profile names no member (from_string's None is
      stored as it is). */
  datatype MouseConfig = MouseConfig(
    inputType: InputType,
    boundInput: InputType,
    mode: Option<MouseAction>,
    execOnRelease: bool,
    motionInput: bool,
    button: ButtonId,
    direction: int,
    minSpeed: int,
    maxSpeed: int,
    timeToMaxSpeed: real)

  /** Upper bound of the speed spin boxes (their lower bound is 0). */
  const SpeedLimit := 100000

  datatype SpeedPair = SpeedPair(min: int, max: int)

  predicate InSpinRange(p: SpeedPair) {
    0 <= p.min <= SpeedLimit && 0 <= p.max <= SpeedLimit
  }

  /** The speed clamp run whenever a speed spin box changes: `edited` holds
      the two spin box values, `stored` the bounds saved before the edit. An
      inverted pair is repaired by moving the bound that was not edited. */
  function ClampSpeeds(edited: SpeedPair, stored: SpeedPair): (r: SpeedPair)
    // an ordered pair is taken as it is
    ensures edited.min <= edited.max ==> r == edited
    // an edit always leaves an ordered pair
    ensures edited != stored ==> r.min <= r.max
    // no edit, no change, even when the stored pair is inverted
    ensures edited == stored ==> r == edited
    // the most recently edited bound wins
    ensures edited.max != stored.max ==> r.max == edited.max
    ensures edited.max == stored.max && edited.min != stored.min ==> r.min == edited.min
    // nothing new is invented: both results are edited values
    ensures r.min in {edited.min, edited.max} && r.max in {edited.min, edited.max}
  {
    if edited.min > edited.max then
      if edited.max != stored.max then SpeedPair(edited.max, edited.max)
      else if edited.min != stored.min then SpeedPair(edited.min, edited.min)
      else edited
    else edited
  }

  /** The clamp keeps spin box values within the spin box range. */
  lemma ClampStaysInSpinRange(edited: SpeedPair, stored: SpeedPair)
    requires InSpinRange(edited)
    ensures InSpinRange(ClampSpeeds(edited, stored))
  {
  }

  /** Once clamped, a pair is stable: running the clamp again on its result,
      whatever is stored, changes nothing. */
  lemma ClampIsStable(edited: SpeedPair, stored: SpeedPair, later: SpeedPair)
    requires edited != stored
    ensures ClampSpeeds(ClampSpeeds(edited, stored), later) == ClampSpeeds(edited, stored)
  {
  }

  /** Raising the minimum above the maximum pulls the maximum up to it. */
  lemma RaisingMinPullsMaxUp(stored: SpeedPair, newMin: int)
    requires newMin > stored.max && newMin != stored.min
    ensures ClampSpeeds(SpeedPair(newMin, stored.max), stored) == SpeedPair(newMin, newMin)
  {
  }

  /** Lowering the maximum below the minimum pulls the minimum down to it. */
  lemma LoweringMaxPullsMinDown(stored: SpeedPair, newMax: int)
    requires newMax < stored.min && newMax != stored.max
    ensures ClampSpeeds(SpeedPair(stored.min, newMax), stored) == SpeedPair(newMax, newMax)
  {
  }

  function StoredSpeeds(c: MouseConfig): SpeedPair {
    SpeedPair(c.minSpeed, c.maxSpeed)
  }

  /** A freshly constructed action bound to an input of the given kind: a
      left-button mapping with speeds 5..15, a one-second ramp, and the
      `input_type` attribute set to JoystickButton whatever it is bound to. */
  function NewAction(bound: InputType): (r: MouseConfig)
    ensures r.boundInput == bound && r.inputType == JoystickButton
    ensures r.mode == Some(MouseButton) && !r.motionInput && !r.execOnRelease
    ensures r.minSpeed <= r.maxSpeed && InSpinRange(StoredSpeeds(r))
  {
    MouseConfig(JoystickButton, bound, Some(MouseButton), false, false, Plain(1), 0, 5, 15, 1.0)
  }

  /** Reading the "mode" attribute of a profile entry into an action. A name
      or number of a member sets that member; text naming no member stores
      None; a number past the last member raises AttributeError (from
      `_missing_` calling `.lower()` on the int), and the entry is not loaded
      (None here). Nothing else is touched. */
  function LoadMode(c: MouseConfig, attr: Option<string>): (r: Option<MouseConfig>)
    ensures r.None? <==> ParseModeAttribute(attr).Rejected?
    ensures r.Some? ==> r.value.(mode := c.mode) == c
    ensures r.Some? ==> (r.value.mode.None? <==> ParseModeAttribute(attr).NotFound?)
    ensures r.Some? && r.value.mode.Some? ==> ParseModeAttribute(attr) == Found(r.value.mode.value)
  {
    match ParseModeAttribute(attr)
    case Found(m) => Some(c.(mode := Some(m)))
    case NotFound => Some(c.(mode := None))
    case Rejected(_) => None
  }

  /** An entry without a mode attribute loads as a mouse-button mapping. */
  lemma LoadMissingMode(c: MouseConfig)
    ensures LoadMode(c, None) == Some(c.(mode := Some(MouseButton)))
  {
    MissingModeIsMouseButton();
  }

  /** The mode written to a profile loads back unchanged. */
  lemma LoadSavedMode(c: MouseConfig, m: MouseAction)
    ensures LoadMode(c, Some(ToString(m))) == Some(c.(mode := Some(m)))
  {
    ProfileModeRoundTrip(m);
  }

  /** The axis editor's update: clamped speeds, and the direction 90 for the
      X axis and 0 for the Y axis. */
  function UpdateAxis(c: MouseConfig, edited: SpeedPair, xAxisChecked: bool): (r: MouseConfig)
    ensures r.direction == 90 <==> xAxisChecked
    ensures r.direction == 0 <==> !xAxisChecked
    ensures StoredSpeeds(r) == ClampSpeeds(edited, StoredSpeeds(c))
    ensures edited != StoredSpeeds(c) ==> r.minSpeed <= r.maxSpeed
    ensures r.(direction := c.direction, minSpeed := c.minSpeed, maxSpeed := c.maxSpeed) == c
  {
    var speeds := ClampSpeeds(edited, StoredSpeeds(c));
    c.(direction := if xAxisChecked then 90 else 0, minSpeed := speeds.min, maxSpeed := speeds.max)
  }

  /** The button and hat editor's update: clamped speeds, the ramp time and
      the direction as edited. */
  function UpdateButtonHat(c: MouseConfig, edited: SpeedPair, rampTime: real, direction: int): (r: MouseConfig)
    ensures StoredSpeeds(r) == ClampSpeeds(edited, StoredSpeeds(c))
    ensures edited != StoredSpeeds(c) ==> r.minSpeed <= r.maxSpeed
    ensures r.timeToMaxSpeed == rampTime && r.direction == direction
    ensures r.(direction := c.direction, minSpeed := c.minSpeed, maxSpeed := c.maxSpeed,
               timeToMaxSpeed := c.timeToMaxSpeed) == c
  {
    var speeds := ClampSpeeds(edited, StoredSpeeds(c));
    c.(direction := direction, minSpeed := speeds.min, maxSpeed := speeds.max, timeToMaxSpeed := rampTime)
  }

  /** Changing the mode in the editor: the combo box always holds a member,
      and motion input is on exactly for the mouse-motion mode. */
  function ChangeMode(c: MouseConfig, mode: MouseAction): (r: MouseConfig)
    ensures r.mode == Some(mode)
    ensures r.motionInput <==> mode == MouseMotion
    ensures r.(mode := c.mode, motionInput := c.motionInput) == c
  {
    c.(mode := Some(mode), motionInput := mode == MouseMotion)
  }

  /** Whether the action needs an activation condition (virtual button):
      only an axis or hat input that is not used as motion input does. */
  function RequiresVirtualButton(c: MouseConfig): (r: bool)
    ensures r ==> !c.motionInput
    ensures r ==> c.boundInput == JoystickAxis || c.boundInput == JoystickHat
    ensures (c.boundInput == JoystickAxis || c.boundInput == JoystickHat) && !c.motionInput ==> r
  {
    if c.boundInput == JoystickAxis || c.boundInput == JoystickHat then !c.motionInput else false
  }

  /** For an action whose mode was set through the editor, a virtual button is
      needed exactly when an axis or hat drives a mode other than mouse motion;
      button and key inputs never need one. */
  lemma VirtualButtonAfterModeChange(c: MouseConfig, mode: MouseAction)
    ensures RequiresVirtualButton(ChangeMode(c, mode))
      <==> (c.boundInput == JoystickAxis || c.boundInput == JoystickHat) && mode != MouseMotion
  {
  }
}

=== FILE: simconnect.dfy ===
/** The decision logic of the map-to-SimConnect action: choosing an output
    mode for a freshly selected command, fitting the configured output range
    into the command's range, the functor's dispatch, and accepting typed
    command names. The command block is an abstract record; executing a
    command is a parameter of the functor. */
module SimConnect {
  import opened Gremlin
  import opened Text

  /** What the action needs to know of a simulator command block. */
  datatype Block = Block(valid: bool, isValue: bool, isRanged: bool, minRange: int, maxRange: int)

  /** How the command is driven: over a range by an axis, with a fixed value,
      or as a bare trigger. */
  datatype ActionMode = NotSet | Ranged | SetValue | Trigger

  /** The stored action data this logic reads and writes. */
  datatype SimConfig = SimConfig(mode: ActionMode, minRange: int, maxRange: int)

  const DefaultMinRange := -16383
  const DefaultMaxRange := 16383

  /** The values a new action starts with. */
  const NewConfig := SimConfig(NotSet, DefaultMinRange, DefaultMaxRange)

  /** The mode a selected command gets when none is set yet. */
  function DefaultMode(mode: ActionMode, inputType: InputType, block: Block): (r: ActionMode)
    ensures r != NotSet
    ensures mode != NotSet ==> r == mode
    ensures mode == NotSet && inputType == JoystickAxis ==> r == Ranged
    ensures mode == NotSet && inputType != JoystickAxis ==> (r == SetValue <==> block.isValue)
    ensures mode == NotSet && inputType != JoystickAxis ==> (r == Trigger <==> !block.isValue)
  {
    if mode == NotSet then
      if inputType == JoystickAxis then Ranged
      else if block.isValue then SetValue
      else Trigger
    else mode
  }

  /** The range fit for a ranged command, four tests in order: raise the
      minimum to the block's, lower the maximum to the block's, widen a
      maximum above the minimum to the block's, and a self-comparison of the
      minimum that can never hold. */
  function ClampRange(c: SimConfig, block: Block): (r: SimConfig)
    ensures r.mode == c.mode
    ensures r.minRange >= block.minRange && r.maxRange <= block.maxRange
    // the minimum moves only when it was below the block's
    ensures c.minRange >= block.minRange ==> r.minRange == c.minRange
    ensures c.minRange < block.minRange ==> r.minRange == block.minRange
    // a maximum left above the minimum is always widened to the block's
    ensures r.maxRange == block.maxRange || r.maxRange <= r.minRange
    // a maximum not widened is the configured one, kept as it was
    ensures r.maxRange == block.maxRange || r.maxRange == c.maxRange
  {
    var lo := if c.minRange < block.minRange then block.minRange else c.minRange;
    var hi := if c.maxRange > block.maxRange then block.maxRange else c.maxRange;
    var hi' := if hi > lo then block.maxRange else hi;
    var lo' := if lo > lo then block.minRange else lo;
    c.(minRange := lo', maxRange := hi')
  }

  /** Fitting twice is fitting once. */
  lemma ClampRangeIdempotent(c: SimConfig, block: Block)
    ensures ClampRange(ClampRange(c, block), block) == ClampRange(c, block)
  {
  }

  /** The fit never repairs an inverted range: any configured range whose
      maximum lies below its minimum, both inside the block, comes out
      unchanged (a configured 50..-20 inside a block of -100..100 stays
      50..-20). */
  lemma ClampKeepsInvertedRange(c: SimConfig, b: Block)
    requires b.minRange <= c.maxRange < c.minRange <= b.maxRange
    ensures ClampRange(c, b) == c
  {
  }

  /** A narrower configured maximum above the minimum is discarded: 0..50
      inside -100..100 becomes 0..100. */
  lemma ClampWidensNarrowMaximum()
    ensures ClampRange(SimConfig(Ranged, 0, 50), Block(true, false, true, -100, 100))
         == SimConfig(Ranged, 0, 100)
  {
  }

  /** Selecting a command block in the editor: nothing happens for a missing
      or invalid block; otherwise the mode is defaulted, and for a ranged
      block the range is fitted. */
  function SelectBlock(c: SimConfig, inputType: InputType, block: Option<Block>): (r: SimConfig)
    ensures (block.None? || !block.value.valid) ==> r == c
    ensures block.Some? && block.value.valid ==>
      && r.mode == DefaultMode(c.mode, inputType, block.value)
      && (block.value.isRanged ==> r == ClampRange(c.(mode := r.mode), block.value))
      && (!block.value.isRanged ==> r.minRange == c.minRange && r.maxRange == c.maxRange)
  {
    match block
    case None => c
    case Some(b) =>
      if !b.valid then c
      else
        var withMode := c.(mode := DefaultMode(c.mode, inputType, b));
        if b.isRanged then ClampRange(withMode, b) else withMode
  }

  /** After a valid block is selected the mode is always set, and a ranged
      block's range bounds the configured one. */
  lemma SelectBlockSettles(c: SimConfig, inputType: InputType, b: Block)
    requires b.valid
    ensures SelectBlock(c, inputType, Some(b)).mode != NotSet
    ensures b.isRanged ==>
      var r := SelectBlock(c, inputType, Some(b));
      b.minRange <= r.minRange && r.maxRange <= b.maxRange
    ensures SelectBlock(SelectBlock(c, inputType, Some(b)), inputType, Some(b)) == SelectBlock(c, inputType, Some(b))
  {
    var withMode := c.(mode := DefaultMode(c.mode, inputType, b));
    if b.isRanged {
      ClampRangeIdempotent(withMode, b);
    }
  }

  /** A new action bound to an axis takes the ranged mode when a command is
      selected; its default minimum is kept inside a wider block, while its
      maximum is widened to the block's, so the output range is lopsided. */
  lemma NewAxisActionTakesBlockMaximum(b: Block)
    requires b.valid && b.isRanged
    requires b.minRange <= DefaultMinRange < b.maxRange
    ensures SelectBlock(NewConfig, JoystickAxis, Some(b)) == SimConfig(Ranged, DefaultMinRange, b.maxRange)
  {
  }

  /** The result of process_event: the returned flag and the values the
      command was executed with, in order (at most one). */
  datatype FunctorResult = FunctorResult(result: bool, executed: seq<Option<real>>)

  /** process_event: a missing or invalid block fails; an axis event does
      nothing; any other event executes the command with the action's value
      when the sample is true. */
  function ProcessEvent(block: Option<Block>, kind: InputType, current: Sample, value: Option<real>,
                        execute: (Block, Option<real>) -> bool): (r: FunctorResult)
    ensures |r.executed| <= 1
    ensures forall x :: x in r.executed ==> x == value
    ensures (block.None? || !block.value.valid) ==> r == FunctorResult(false, [])
    ensures r.executed != [] ==> block.Some? && block.value.valid && r.result == execute(block.value, value)
    ensures r.executed != [] <==> block.Some? && block.value.valid && kind != JoystickAxis && Truthy(current)
    ensures r.executed == [] && block.Some? && block.value.valid ==> r.result
  {
    match block
    case None => FunctorResult(false, [])
    case Some(b) =>
      if !b.valid then FunctorResult(false, [])
      else if kind == JoystickAxis then FunctorResult(true, [])
      else if Truthy(current) then FunctorResult(execute(b, value), [value])
      else FunctorResult(true, [])
  }

  /** A hat returning to its centre still executes the command: the (0, 0)
      tuple is truthy. */
  lemma HatCentreExecutes(b: Block, value: Option<real>, execute: (Block, Option<real>) -> bool)
    requires b.valid
    ensures ProcessEvent(Some(b), JoystickHat, Hat(0, 0), value, execute).executed == [value]
  {
  }

  /** A button release never executes and reports success. */
  lemma ReleaseDoesNothing(b: Block, value: Option<real>, execute: (Block, Option<real>) -> bool)
    requires b.valid
    ensures ProcessEvent(Some(b), JoystickButton, Flag(false), value, execute) == FunctorResult(true, [])
  {
  }

  /** The validator's verdict. Text the acceptable test rejects goes on to a
      prefix match that decides between intermediate and invalid; that match
      is not modelled. */
  datatype Verdict = Acceptable | Undecided

  /** The text the validator compares: upper-cased, then stripped. */
  function CleanCommand(value: string): string {
    Strip(Upper(value))
  }

  /** The acceptable case of the command validator: blank text, or text
      naming a listed command exactly. */
  function Validate(value: string, commands: seq<string>): (r: Verdict)
    ensures r == Acceptable <==> CleanCommand(value) == "" || CleanCommand(value) in commands
  {
    var clean := CleanCommand(value);
    if clean == "" || clean in commands then Acceptable else Undecided
  }

  /** Whitespace-only text is acceptable. */
  lemma BlankIsAcceptable(w: string, commands: seq<string>)
    requires AllSpace(w)
    ensures Validate(w, commands) == Acceptable
  {
    UpperKeepsSpace(w);
    StripPadding(w, "", "");
    assert w + "" + "" == w;
  }

  /** Case does not matter to the validator. */
  lemma ValidateIgnoresCase(value: string, commands: seq<string>)
    ensures Validate(Lower(value), commands) == Validate(value, commands)
    ensures Validate(Upper(value), commands) == Validate(value, commands)
  {
    assert Upper(Lower(value)) == Upper(value);
    assert Upper(Upper(value)) == Upper(value);
  }

  /** Surrounding whitespace does not matter to the validator. */
  lemma ValidateIgnoresPadding(w1: string, value: string, w2: string, commands: seq<string>)
    requires AllSpace(w1) && AllSpace(w2)
    ensures Validate(w1 + value + w2, commands) == Validate(value, commands)
  {
    UpperConcat(w1 + value, w2);
    UpperConcat(w1, value);
    UpperKeepsSpace(w1);
    UpperKeepsSpace(w2);
    StripPadding(w1, Upper(value), w2);
  }

  /** A listed command typed in any case is acceptable, provided the list
      holds it in upper case without padding (a listed name with a lower-case
      letter can never be matched). */
  lemma ListedCommandIsAcceptable(name: string, commands: seq<string>)
    requires name in commands && CleanCommand(name) == name
    ensures Validate(name, commands) == Acceptable
    ensures Validate(Lower(name), commands) == Acceptable
  {
    ValidateIgnoresCase(name, commands);
  }

  /** Whether the action needs an activation condition: exactly for axis and
      hat inputs, whose samples carry no press edge of their own. */
  function RequiresVirtualButton(inputType: InputType): (r: bool)
    ensures r <==> !(inputType == JoystickButton || inputType == Keyboard)
  {
    inputType == JoystickAxis || inputType == JoystickHat
  }
}

=== FILE: text.dfy ===
/** The few Python string operations the plugins use to normalise text:
    str.strip(), str.lower(), str.upper() and str.isnumeric()/int(). Case
    mapping and digits are the ASCII ones; whitespace is the full set that
    str.isspace() accepts. */
module Text {

  /** A character str.isspace() accepts (and str.strip() removes). */
  predicate IsSpace(c: char) {
    var n := c as int;
    || (9 <= n <= 13) || (28 <= n <= 32)
    || n == 0x85 || n == 0xA0 || n == 0x1680
    || (0x2000 <= n <= 0x200A)
    || n == 0x2028 || n == 0x2029 || n == 0x202F || n == 0x205F || n == 0x3000
  }

  predicate AllSpace(s: string) {
    forall i :: 0 <= i < |s| ==> IsSpace(s[i])
  }

  function LowerChar(c: char): char {
    if 'A' <= c <= 'Z' then (c as int + 32) as char else c
  }

  function UpperChar(c: char): char {
    if 'a' <= c <= 'z' then (c as int - 32) as char else c
  }

  function Lower(s: string): (r: string)
    ensures |r| == |s| && forall i :: 0 <= i < |s| ==> r[i] == LowerChar(s[i])
  {
    seq(|s|, i requires 0 <= i < |s| => LowerChar(s[i]))
  }

  function Upper(s: string): (r: string)
    ensures |r| == |s| && forall i :: 0 <= i < |s| ==> r[i] == UpperChar(s[i])
  {
    seq(|s|, i requires 0 <= i < |s| => UpperChar(s[i]))
  }

  /** Drops the leading whitespace. */
  function TrimLeft(s: string): (r: string)
    ensures |r| <= |s| && r == s[|s| - |r|..]
    ensures AllSpace(s[..|s| - |r|])
    ensures |r| > 0 ==> !IsSpace(r[0])
    decreases |s|
  {
    if |s| > 0 && IsSpace(s[0]) then TrimLeft(s[1..]) else s
  }

  /** Drops the trailing whitespace. */
  function TrimRight(s: string): (r: string)
    ensures |r| <= |s| && r == s[..|r|]
    ensures AllSpace(s[|r|..])
    ensures |r| > 0 ==> !IsSpace(r[|r| - 1])
    decreases |s|
  {
    if |s| > 0 && IsSpace(s[|s| - 1]) then TrimRight(s[..|s| - 1]) else s
  }

  /** Python's str.strip() with no argument. */
  function Strip(s: string): (r: string)
    ensures |r| <= |s|
    ensures |r| > 0 ==> !IsSpace(r[0]) && !IsSpace(r[|r| - 1])
  {
    TrimRight(TrimLeft(s))
  }

  predicate IsDigit(c: char) {
    '0' <= c <= '9'
  }

  /** str.isnumeric() for ASCII text: non-empty and all decimal digits. */
  predicate IsNumeric(s: string) {
    |s| > 0 && forall i :: 0 <= i < |s| ==> IsDigit(s[i])
  }

  /** int() of a string of decimal digits (leading zeros allowed). */
  function DigitsValue(s: string): nat
    requires forall i :: 0 <= i < |s| ==> IsDigit(s[i])
    decreases |s|
  {
    if |s| == 0 then 0
    else
      var last := s[|s| - 1];
      assert IsDigit(last);
      DigitsValue(s[..|s| - 1]) * 10 + (last as int - '0' as int)
  }

  lemma {:induction false} TrimLeftPadding(w: string, s: string)
    requires AllSpace(w)
    ensures TrimLeft(w + s) == TrimLeft(s)
    decreases |w|
  {
    if |w| == 0 {
      assert w + s == s;
    } else {
      assert (w + s)[0] == w[0];
      assert (w + s)[1..] == w[1..] + s;
      TrimLeftPadding(w[1..], s);
    }
  }

  lemma {:induction false} TrimRightPadding(s: string, w: string)
    requires AllSpace(w)
    ensures TrimRight(s + w) == TrimRight(s)
    decreases |w|
  {
    if |w| == 0 {
      assert s + w == s;
    } else {
      assert (s + w)[|s + w| - 1] == w[|w| - 1];
      assert (s + w)[..|s + w| - 1] == s + w[..|w| - 1];
      TrimRightPadding(s, w[..|w| - 1]);
    }
  }

  lemma {:induction false} StripTrailing(s: string, w: string)
    requires AllSpace(w)
    ensures Strip(s + w) == Strip(s)
    decreases |s|
  {
    if |s| == 0 {
      assert s + w == w + "";
      TrimLeftPadding(w, "");
    } else if IsSpace(s[0]) {
      assert (s + w)[0] == s[0];
      assert (s + w)[1..] == s[1..] + w;
      StripTrailing(s[1..], w);
    } else {
      assert (s + w)[0] == s[0];
      TrimRightPadding(s, w);
    }
  }

  /** Surrounding whitespace never changes what str.strip() yields. */
  lemma StripPadding(w1: string, s: string, w2: string)
    requires AllSpace(w1) && AllSpace(w2)
    ensures Strip(w1 + s + w2) == Strip(s)
  {
    calc {
      Strip(w1 + s + w2);
      { assert w1 + s + w2 == w1 + (s + w2); }
      TrimRight(TrimLeft(w1 + (s + w2)));
      { TrimLeftPadding(w1, s + w2); }
      TrimRight(TrimLeft(s + w2));
      Strip(s + w2);
      { StripTrailing(s, w2); }
      Strip(s);
    }
  }

  /** Text with no whitespace at either end is left as it is. */
  lemma StripUnpadded(s: string)
    requires |s| > 0 ==> !IsSpace(s[0]) && !IsSpace(s[|s| - 1])
    ensures Strip(s) == s
  {
  }

  lemma LowerConcat(a: string, b: string)
    ensures Lower(a + b) == Lower(a) + Lower(b)
  {
  }

  lemma UpperConcat(a: string, b: string)
    ensures Upper(a + b) == Upper(a) + Upper(b)
  {
  }

  lemma LowerKeepsSpace(w: string)
    requires AllSpace(w)
    ensures Lower(w) == w
  {
  }

  lemma UpperKeepsSpace(w: string)
    requires AllSpace(w)
    ensures Upper(w) == w
  {
  }
}

=== FILE: wiggle.dfy ===
/** The wiggle worker shared by every map-to-mouse functor: one thread handle
    and one stop flag for the whole process. The worker's loop (its timing
    and the moves it makes) is outside the model; what is modelled is the
    handle, the flag and the number of worker threads alive. */
module Wiggle {

  datatype WiggleState = WiggleState(handle: bool, stopRequested: bool, workers: nat)

  /** No worker, no stop pending: the state before any wiggle mapping fires. */
  const Idle := WiggleState(false, false, 0)

  /** A handle is held exactly while its one worker runs, and a running
      worker has not been asked to stop. */
  predicate Consistent(w: WiggleState) {
    && w.workers == (if w.handle then 1 else 0)
    && (w.handle ==> !w.stopRequested)
  }

  /** Start: a held handle means already started and nothing changes;
      otherwise the stop flag is cleared and a worker is spawned. */
  function Start(w: WiggleState): (r: WiggleState)
    ensures r.handle
    ensures w.handle ==> r == w
    ensures !w.handle ==> !r.stopRequested && r.workers == w.workers + 1
    ensures Consistent(w) ==> Consistent(r) && r.workers == 1
  {
    if w.handle then w
    else WiggleState(true, false, w.workers + 1)
  }

  /** Stop: with no handle nothing changes; otherwise the stop flag is set,
      the caller waits for the worker to exit, and the handle is dropped.
      The flag stays set until the next start. */
  function Stop(w: WiggleState): (r: WiggleState)
    ensures !r.handle
    ensures !w.handle ==> r == w
    ensures w.handle ==> r.stopRequested && r.workers == if w.workers > 0 then w.workers - 1 else 0
    ensures Consistent(w) ==> Consistent(r) && r.workers == 0
  {
    if !w.handle then w
    else WiggleState(false, true, if w.workers > 0 then w.workers - 1 else 0)
  }

  /** Two starts in a row leave exactly one worker. */
  lemma StartTwice(w: WiggleState)
    requires Consistent(w)
    ensures Start(Start(w)) == Start(w)
    ensures Start(Start(w)).workers == 1
  {
  }

  /** A stop without a start is a no-op. */
  lemma StopWhenIdle()
    ensures Stop(Idle) == Idle
  {
  }

  /** Stopping twice is the same as stopping once. */
  lemma StopTwice(w: WiggleState)
    ensures Stop(Stop(w)) == Stop(w)
  {
  }

  /** Stop returns only after the worker is gone, so a later start spawns a
      fresh worker with a cleared flag instead of reusing the old one. */
  lemma StopThenStart(w: WiggleState)
    requires Consistent(w)
    ensures Stop(Start(w)).workers == 0 && Stop(Start(w)).stopRequested
    ensures Start(Stop(Start(w))) == WiggleState(true, false, 1)
  {
  }
}
